=== FILE: README.md ===
# Issue tracker access control, modelled in Dafny

This project models the access-control and membership core of a small Flask issue
tracker. Administrators create accounts and projects and assign users to projects.
Members of a project file and edit its tickets. Authors and administrators delete tickets.
Anyone may register a regular account.

The model has four parts:

- **The database** (`Models`). It holds the `users`, `projects` and `tickets` tables as
  maps keyed by row id, and the `project_users` table as a set of (project id, user id)
  pairs. It also covers the schema constraints, the lookups the routes run, and how the
  login manager resolves a session to a user. The database configuration is not
  part of this model, so the model assumes an SQLite backend. Under that assumption a
  new row gets one past the largest id in its table, and usernames and project names
  compare exactly, case included.
- **The form validators** (`Forms`, with Python's `str.strip`/`isspace` in `Text`). They
  are predicates over the submitted strings and, for the uniqueness checks, over the
  current tables.
- **The permission table** (`Policy`). It is an independent statement of who may do what.
- **The request handlers** (`Routes`). Each handler is a pure function. It takes the
  database, the caller's session, the route's arguments and form, and `submitted`. It
  returns an `Outcome` together with the new database and session. `submitted` is the
  part of `validate_on_submit` that is not the field validators: the request was a POST
  with a valid anti-forgery token. The handlers run their checks in the same order as the
  source, so the order in which errors win is preserved.

`Outcome` is one of:

- `Ok(msg)`: a redirect. `msg` names the flash message, or is `Redirected` when nothing is flashed.
- `Unauthorized`: the `login_required` redirect.
- `Forbidden`: `abort(403)`.
- `NotFound`: `get_or_404`.
- `BadRequest`: `abort(400)`.
- `Invalid`: the form page is rendered again and nothing changes.
- `BadCredentials`: the login page is rendered again after a failed password check.
- `ServerError`: an unhandled exception; nothing is committed.

`Properties` holds the lemmas that span several handlers:

- every request preserves the schema invariants;
- rejected requests change nothing;
- the guard of each role and membership check matches the permission table;
- idempotence and undo laws for membership, ticket and project operations;
- the session round trips.

Roles and statuses are free text in the schema. That only `admin`/`regular` and
`Open`/`In Progress`/`Closed` ever appear is part of the `Valid` invariant, which the
handlers preserve.

Two behaviours of the code are worth stating up front:

- Deleting a project does not delete its tickets. No cascade is declared
  (app/models.py:47), and `tickets.project_id` is NOT NULL (app/models.py:35). The ORM
  therefore tries to set the tickets' `project_id` to NULL, and the database refuses.
  `DeleteProject` answers `ServerError` and changes nothing while the project has tickets.
  When it has none, it deletes the project and its membership rows.
- `login_as` (app/routes.py:71-82) logs in, without a credential, any existing user whose
  username is one URL path segment: non-empty and without `/`. A name with a `/` in it can
  be registered but never matches the route, which then answers `NotFound`.
  `LoginAs` models it: it logs out the current user first, even when the name is unknown.

## Model

| member | source | states |
|---|---|---|
| `Text.Strip` | app/routes.py:219 | The stripped name is the part of the input between leading and trailing white space: everything dropped is white space, and the result neither starts nor ends with it. It is empty exactly when the input has no other character. |
| `Text.StripIdempotent` | app/routes.py:219 | Stripping a stripped name changes nothing. |
| `Models.CheckAcceptsOnlyItsPassword` | app/routes.py:62 | A stored hash verifies exactly the password it was generated from. |
| `Models.NewId` | app/models.py:16 | A new row gets an id no existing row has, larger than every existing id. |
| `Models.FindUserByName` | app/routes.py:61 | The name lookup finds nothing exactly when no user has that username. Otherwise it finds a user with that name. `.first()` fixes no order, so when several match the model picks the least id. Under the UNIQUE constraint on usernames at most one matches. |
| `Models.FindUniqueUser` | app/models.py:17 | When usernames are unique, looking up a user's name finds that user. |
| `Models.Insert` | app/routes.py:46-47 | `add` followed by `commit` adds exactly one row, under a fresh id, holding the given value. |
| `Models.CurrentUserId` | app/routes.py:33 | `current_user.is_authenticated` holds exactly when the session names a stored user. |
| `Models.LoadUser` | app/models.py:5-7 | A session resolves to the stored user with its id, or to nobody when the session is empty or the row is gone. |
| `Forms.RegistrationValid` | app/forms.py:7-18 | The registration form's validators: a non-blank username of 2 to 20 characters that no user has, a non-blank password of at least 6 characters, and a non-blank confirmation equal to it. The admin checkbox has none. |
| `Forms.LoginValid` | app/forms.py:20-23 | The login form's validators: a non-blank username of 2 to 20 characters and a non-blank password. |
| `Forms.TicketValid` | app/forms.py:25-29 | The ticket form's validators: a non-blank subject of 1 to 100 characters, a non-blank description, and a status among the three choices. |
| `Forms.ProjectValid` | app/forms.py:31-39 | The project form's validators: a non-blank name of 1 to 100 characters that no project has. The description has none. |
| `Forms.AssignUserValid` | app/forms.py:41-42 | The assign form's only validator: the username field is not blank. |
| `Forms.RegistrationImpliesLoginForm` | app/forms.py:8-22 | Credentials the registration form accepts always pass the login form's checks. |
| `Forms.AssignFormStripsToName` | app/forms.py:41-42 | The assign form accepts exactly the inputs whose stripped form is non-empty, so the name the route looks up is never empty. |
| `Forms.PaddedUsernameRegisters` | app/forms.py:8 | Registration accepts a username with surrounding white space (" bob"), which stripping would change. |
| `Policy.AdminMayDoAnything` | app/routes.py:87-261 | An administrator may take every action on rows that exist. |
| `Policy.OutsiderMayOnlyDeleteOwnTickets` | app/routes.py:116-188 | A non-administrator who belongs to no project may only delete tickets they wrote. |
| `Routes.Handle` | app/routes.py:11-269 | URL dispatch: each request goes to its handler. `login_required` routes reach their handler only through the login gate. |
| `Routes.Register` | app/routes.py:32-50 | The caller's session never changes. A logged-in caller is turned away and nothing changes. An account is created exactly when the caller is anonymous and the form is submitted and valid. An anonymous caller otherwise gets the form rendered again (`Invalid`). The new account is one new row with role `regular`, whatever the admin checkbox says. No other table changes. |
| `Routes.Login` | app/routes.py:56-69 | The database never changes. A logged-in caller is redirected with no flash message and the session kept. A successful login sets the session to a user whose username is the one given and whose hash verifies the password. Any other outcome leaves the session as it was. A valid submitted form either logs in or reports bad credentials. |
| `Routes.LoginAs` | app/routes.py:71-82 | A name that is not one path segment (empty, or containing `/`) matches no route: `NotFound`, and nothing changes. Otherwise, with no credential check, the caller becomes the user with the given name whenever one exists. When none exists the outcome is "user not found" and nobody is logged in afterwards. The session is emptied only if its user was authenticated; a stale id stays as it was. |
| `Routes.Logout` | app/routes.py:108-111 | Afterwards the session is empty, and the database is unchanged. |
| `Routes.CreateUser` | app/routes.py:86-104 | Anonymous callers get `Unauthorized`. Non-administrators get `Forbidden`. Otherwise a valid submitted form adds one user row whose role is admin exactly when the checkbox is ticked, and any other submission renders the form again (`Invalid`). Every other outcome leaves the database unchanged. |
| `Routes.NewTicket` | app/routes.py:116-138 | Checks run in order: `Unauthorized`, then `NotFound` for a missing project, then `Forbidden` unless the caller is an administrator or a member. A ticket is created exactly when all checks pass and the form is valid. When the checks pass but the form is not submitted and valid, the form is rendered again (`Invalid`). It is one new row carrying the form's subject, description and status, the caller as author, the route's project and the given time. Nothing else changes. |
| `Routes.UpdateTicket` | app/routes.py:153-170 | Checks run in order: `Unauthorized`, `NotFound`, `ServerError` when the ticket's project row is gone, then `Forbidden` unless the caller is an administrator or a member of the ticket's project. After those checks, the edit succeeds exactly when the form is submitted and valid, and otherwise gives `Invalid`. On success only that ticket's subject, description and status change. Its id, author, project and creation time stay the same, and every other row is untouched. |
| `Routes.DeleteTicket` | app/routes.py:177-188 | Checks run in order: `Unauthorized`, `NotFound`, `BadRequest` without a valid submission, then `Forbidden` unless the caller is an administrator or the author. On success exactly that ticket is removed. |
| `Routes.CreateProject` | app/routes.py:194-204 | Anonymous callers get `Unauthorized` and non-administrators get `Forbidden`. A valid submitted form with an unused name adds exactly one project row. Any other submission by an administrator renders the form again (`Invalid`). Nothing else changes. |
| `Routes.AssignMember` | app/routes.py:219-230 | An unknown name changes nothing ("does not exist"). A user who is already a member changes nothing ("already assigned"). Otherwise the one pair (project, that user) is added. |
| `Routes.AssignUser` | app/routes.py:209-230 | Checks run in order: `Unauthorized`, `NotFound` for a missing project, the page rendered again without a valid assign submission, then `Forbidden` for a non-administrator. Otherwise the stripped name is assigned as `AssignMember` states. |
| `Routes.DeleteProject` | app/routes.py:243-254 | Checks run in order: `Unauthorized`, `NotFound`, `BadRequest`, `Forbidden` for a non-administrator, then `ServerError` while tickets still point at the project. The deletion succeeds exactly when every check passes and the project has no tickets. On success the project row and exactly its membership pairs are removed. Users and tickets stay as they were. |
| `Routes.RemoveUser` | app/routes.py:258-269 | Checks run in order: `Unauthorized`, project `NotFound`, `Forbidden` for a non-administrator, then user `NotFound`. A member is removed by deleting only that pair. A non-member gives "not assigned" and nothing changes. |
| `Properties.AddUserKeepsValid` | app/models.py:17-19 | Adding a user with an unused name and a known role keeps the schema invariants. |
| `Properties.NewTicketKeepsValid` | app/models.py:30-35 | Filing a ticket keeps the foreign keys and the status set intact. |
| `Properties.CreateProjectKeepsValid` | app/models.py:44 | Creating a project keeps project names unique. |
| `Properties.DeleteProjectKeepsValid` | app/models.py:35-47 | Deleting a project never leaves a ticket or membership pointing at it. |
| `Properties.RegisterKeepsValid` | app/routes.py:41-47 | Self-registration keeps the schema invariants: the new row has an unused name and the role `regular`. |
| `Properties.CreateUserKeepsValid` | app/routes.py:94-101 | Creating a user keeps the schema invariants: the new row has an unused name and one of the two known roles. |
| `Properties.UpdateTicketKeepsValid` | app/routes.py:159-163 | Editing a ticket keeps the schema invariants; the new status is one of the known choices. |
| `Properties.DeleteTicketKeepsValid` | app/routes.py:181-186 | Deleting a ticket keeps the schema invariants. |
| `Properties.AssignUserKeepsValid` | app/routes.py:219-228 | Assigning a user adds only a pair whose project and user both exist. |
| `Properties.RemoveUserKeepsValid` | app/routes.py:262-268 | Removing a user from a project keeps the schema invariants. |
| `Properties.HandlePreservesValid` | app/models.py:9-47 | Every request keeps usernames and project names unique, keeps membership pairs and ticket foreign keys pointing at existing rows, and keeps roles and statuses within their known values. |
| `Properties.RunPreservesValid` | app/models.py:9-47 | Any sequence of requests from a valid database ends in a valid database. |
| `Properties.ReachableIsValid` | app/models.py:9-47 | Every database built by requests from a deployed one (empty but for one administrator) is valid. When the administrator's username passes the registration rules, every stored username, project name and ticket text passes its form's validators. |
| `Properties.AddUserKeepsFieldsConform` | app/forms.py:8 | A new user whose name passed the registration form's validators keeps every stored username passing them. |
| `Properties.RegisterKeepsFieldsConform` | app/routes.py:37-47 | Self-registration stores only a username that passed the form's validators. |
| `Properties.CreateUserKeepsFieldsConform` | app/routes.py:90-101 | Creating a user stores only a username that passed the form's validators. |
| `Properties.NewTicketKeepsFieldsConform` | app/routes.py:122-131 | Filing stores only a subject and description that passed the ticket form's validators. |
| `Properties.UpdateTicketKeepsFieldsConform` | app/routes.py:159-163 | Editing overwrites subject and description only with values that passed the ticket form's validators. |
| `Properties.CreateProjectKeepsFieldsConform` | app/routes.py:197-201 | Creating a project stores only a name that passed the project form's validators. |
| `Properties.HandleKeepsFieldsConform` | app/forms.py:7-39 | After any request, every stored username still has content and 2 to 20 characters. Every project name still has content and 1 to 100 characters. Every ticket subject still has content and 1 to 100 characters, and every ticket description still has content. |
| `Properties.RunKeepsFieldsConform` | app/forms.py:7-39 | The same holds after any sequence of requests. |
| `Properties.UsersAreAppendOnly` | app/routes.py:41-101 | No request edits or deletes a user row. |
| `Properties.NewTicketKeepsOwnership` | app/routes.py:122-131 | Filing a ticket leaves every existing ticket's author, project and creation time as they were. |
| `Properties.TicketOwnershipIsFixed` | app/routes.py:159-163 | A ticket that survives a request keeps its author, project and creation time. |
| `Properties.NoAdminFromNowhere` | app/routes.py:33-98 | A request against a database with no administrator never creates one, and leaves the projects unchanged. |
| `Properties.NoAdminEver` | app/routes.py:33-98 | No sequence of requests starting without an administrator ever produces one, or creates or deletes a project. |
| `Properties.RejectionChangesNothing` | app/routes.py:57-269 | Every request whose outcome is not `Ok` leaves both the database and the session unchanged. |
| `Properties.AnonymousIsUnauthorized` | app/routes.py:11-14 | The outcome is `Unauthorized` exactly for a `login_required` route called without a resolvable session. |
| `Properties.StaleSessionIsAnonymous` | app/models.py:5-7 | For every request, a session whose user row is gone gives the same outcome and the same database as no session. On a `login_required` route the whole step is the same, except that the stale id stays in the session. |
| `Properties.NonAdminCannotAdminister` | app/routes.py:87-261 | A logged-in non-administrator gets `Forbidden` from create_user and create_project. It also gets `Forbidden` from assign, delete_project and remove_user once their earlier checks pass. None of these requests changes anything for them. |
| `Properties.NewTicketAllowedIffAdminOrMember` | app/routes.py:117-119 | In an existing project, filing is forbidden exactly when the caller is neither an administrator nor a member. With a valid form, it succeeds exactly when the caller is one of those. |
| `Properties.UpdateTicketAllowedIffAdminOrMember` | app/routes.py:154-157 | Editing an existing ticket is forbidden exactly when the caller is neither an administrator nor a member of its project. With a valid form, it succeeds exactly when the caller is one of those. |
| `Properties.AuthorDeletesFiledTicket` | app/routes.py:181-183 | The author deleting a just-added ticket gives back the database as it was before. |
| `Properties.OthersDeleteFiledTicket` | app/routes.py:178-188 | On a just-added ticket, a regular user who is not its author is forbidden to delete it, and an administrator's deletion succeeds. |
| `Properties.TicketDeletionRights` | app/routes.py:178-188 | Once a member files a ticket, another regular user is forbidden to delete it. An administrator may delete it. The author's deletion restores the database. |
| `Properties.UpdateTicketIdempotent` | app/routes.py:159-163 | Submitting the same edit twice has the effect of submitting it once. |
| `Properties.CreatedProjectIsOneRow` | app/routes.py:197-201 | An administrator's valid project form succeeds and adds exactly one row, under an id no project had, holding the form's name and description and the given time. |
| `Properties.AdminDeletesNewProject` | app/routes.py:244-252 | An administrator deleting a just-added project gives back the database as it was before. |
| `Properties.DeleteUndoesCreateProject` | app/routes.py:194-252 | Creating a project and then deleting it restores the database. |
| `Properties.AssignIdempotent` | app/routes.py:219-230 | Assigning a name a second time changes nothing. The second request reports "already assigned" for an existing user and "does not exist" otherwise. |
| `Properties.RemoveIdempotent` | app/routes.py:262-268 | Removing a user a second time reports "not assigned" and changes nothing. |
| `Properties.RemoveUndoesAssign` | app/routes.py:219-269 | Assigning a non-member and then removing them restores the database. |
| `Properties.AssignUndoesRemove` | app/routes.py:219-269 | Removing a member and assigning them again by their username restores the database, provided the username has no surrounding white space. |
| `Properties.AssignMemberAddsNamedUser` | app/routes.py:219-225 | The only pair an assignment can add is for the user whose username is exactly the looked-up name. |
| `Properties.PaddedNameNeverAssigned` | app/routes.py:219-220 | A user whose username has leading or trailing white space is never added to any project, because the looked-up name is always stripped. |
| `Properties.RegisterThenLogin` | app/routes.py:37-63 | A freshly registered account logs in with its registration password. The session becomes the new row's id. |
| `Properties.DuplicateRegistrationRefused` | app/forms.py:15-18 | Registering the same username a second time is refused by the form and changes nothing. |
| `Properties.LoginIffCredentials` | app/routes.py:60-68 | With unique usernames, a valid login succeeds exactly when a user of that name exists and the password verifies. Otherwise it reports bad credentials and nobody is logged in. |
| `Properties.LoginAsAnyone` | app/routes.py:71-79 | `login_as` with any existing username that is one path segment makes the caller that user, with no credential. |
| `Properties.SlashedUsernameEscapesLoginAs` | app/routes.py:71 | Registration accepts the username "a/b", because app/forms.py:8 restricts no characters. `login_as` with that name is `NotFound` and changes nothing. |
| `Properties.LogoutEndsAccess` | app/routes.py:108-111 | After logout, every `login_required` route answers `Unauthorized`. |
| `Properties.CreatedRoleFollowsCheckbox` | app/routes.py:94 | The account created by create_user is an administrator exactly when `is_admin` was ticked. |

## Left out

- Rendering, flash message text, `url_for` and redirect targets. Only the outcome tag and a message tag are modelled.
- The "return to the requested page after login" behaviour. The unauthorized handler passes an endpoint name rather than a URL (app/routes.py:14), and login redirects to the raw `next` value, so no faithful round trip exists.
- The read-only views `home`, `ticket` and the GET of the project page. They only need a login. A GET of the project page appears as `Invalid` (page rendered, nothing changed) in `AssignUser`.
- Anti-forgery tokens and the HTTP method. They are folded into the boolean `submitted`. A GET to a POST-only route (HTTP 405) is not modelled.
- `remove_user` validates no form in the route. Whether a global anti-forgery check applies depends on application setup that is not part of this model, so the route is modelled without one.
- PBKDF2-SHA256 hashing. The hash is modelled as ideal: injective, no salt, no collisions, deterministic.
- `datetime.utcnow()`. Creation times are a parameter of the creating requests, and nothing inspects them.
- URL matching beyond the `login_as` segment rule. The `int` converters of the other routes appear as the `Id` type. Trailing-slash redirects and percent-encoding are not modelled.
- Transactions, concurrent requests and uniqueness races. Requests are handled one at a time.
- Column length limits (`String(20)`, `String(100)`). Assuming the SQLite backend, they are not enforced. The forms already bound the lengths of usernames, project names and ticket subjects (`Properties.RunKeepsFieldsConform`).
- The conversion of the stored session value with `int(...)`. The session holds an id directly.
- The difference between a form field that is absent (`None`) and one that is empty. Every validator treats them alike, and a project description is stored as the string submitted.
- `Routes.Login`: its contract does not say which user is chosen when several share a username, because the schema makes usernames unique. `Properties.LoginIffCredentials` states the full equivalence under that constraint.
- `Properties.UpdateTicketAllowedIffAdminOrMember`: assumes the schema invariants, so that the ticket's project exists. The `ServerError` for a missing project is stated by `Routes.UpdateTicket`.

=== FILE: Forms.dfy ===
/**
 * The field validators of the submitted forms, as predicates over the submitted strings
 * and, where a validator queries the database, over the current tables. A field the
 * browser did not send is the empty string: every validator treats the two alike.
 */
module Forms {
  import opened Text
  import opened Models

  /** `DataRequired()`: the field holds something other than white space. */
  predicate DataRequired(data: string)
  {
    HasContent(data)
  }

  /** `Length(min=lo, max=hi)`, counted in characters. */
  predicate LengthBetween(data: string, lo: nat, hi: nat)
  {
    lo <= |data| <= hi
  }

  /** `Length(min=lo)` with no upper bound. */
  predicate LengthAtLeast(data: string, lo: nat)
  {
    lo <= |data|
  }

  datatype RegistrationForm = RegistrationForm(
    username: string,
    isAdmin: bool,
    password: string,
    confirmPassword: string)

  datatype LoginForm = LoginForm(username: string, password: string)

  datatype TicketForm = TicketForm(subject: string, description: string, status: string)

  datatype ProjectForm = ProjectForm(name: string, description: string)

  datatype AssignUserForm = AssignUserForm(username: string)

  /**
   * `RegistrationForm.validate()`: username required, 2 to 20 characters and not taken
   * (the inline `validate_username`); password required and at least 6 characters;
   * confirmation required and equal to the password. `is_admin` has no validator.
   */
  predicate RegistrationValid(f: RegistrationForm, users: map<Id, User>)
  {
    && DataRequired(f.username) && LengthBetween(f.username, 2, 20)
    && !UsernameTaken(users, f.username)
    && DataRequired(f.password) && LengthAtLeast(f.password, 6)
    && DataRequired(f.confirmPassword) && f.confirmPassword == f.password
  }

  /** `LoginForm.validate()`: username required and 2 to 20 characters, password required. */
  predicate LoginValid(f: LoginForm)
  {
    && DataRequired(f.username) && LengthBetween(f.username, 2, 20)
    && DataRequired(f.password)
  }

  /**
   * `TicketForm.validate()`: subject required and 1 to 100 characters, description
   * required, status one of the select field's choices.
   */
  predicate TicketValid(f: TicketForm)
  {
    && DataRequired(f.subject) && LengthBetween(f.subject, 1, 100)
    && DataRequired(f.description)
    && f.status in STATUS_CHOICES
  }

  /**
   * `ProjectForm.validate()`: name required, 1 to 100 characters and not used by another
   * project (the inline `validate_name`); the description has no validator.
   */
  predicate ProjectValid(f: ProjectForm, projects: map<Id, Project>)
  {
    && DataRequired(f.name) && LengthBetween(f.name, 1, 100)
    && !ProjectNameTaken(projects, f.name)
  }

  /** `AssignUserForm.validate()`: username required. */
  predicate AssignUserValid(f: AssignUserForm)
  {
    DataRequired(f.username)
  }

  // ---------------------------------------------------------------------------
  // What the validators accept and refuse

  /** Credentials accepted at registration always pass the login form's own checks. */
  lemma RegistrationImpliesLoginForm(f: RegistrationForm, users: map<Id, User>)
    requires RegistrationValid(f, users)
    ensures LoginValid(LoginForm(f.username, f.password))
  {
  }

  /** The assign form accepts exactly the inputs whose stripped form is a non-empty name. */
  lemma AssignFormStripsToName(f: AssignUserForm)
    ensures AssignUserValid(f) <==> Strip(f.username) != []
  {
  }

  /**
   * Registration does not strip: a username with surrounding white space, such as " bob",
   * is accepted as it is.
   */
  lemma PaddedUsernameRegisters()
    ensures RegistrationValid(RegistrationForm(" bob", false, "secret", "secret"), map[])
    ensures Strip(" bob") != " bob"
  {
    assert !IsSpace(" bob"[1]);
    assert !IsSpace("secret"[0]);
    assert " bob"[0] == ' ';
  }
}

=== FILE: Models.dfy ===
/**
 * The persistent data of the issue tracker: the `users`, `projects`, `tickets` and
 * `project_users` tables, the schema constraints on them, how the database hands out
 * new row ids, the lookups the routes perform, and how a session resolves to a user.
 */
module Models {

  datatype Option<T> = None | Some(value: T)

  /** A primary key. SQLite row ids are positive, but nothing here depends on it. */
  type Id = nat

  /** The value `datetime.utcnow()` produced when a row was created; never inspected. */
  type Timestamp = int

  /** The only role strings any route writes into `users.role`. */
  const ADMIN: string := "admin"
  const REGULAR: string := "regular"

  /** The ticket statuses the ticket form offers; a new ticket row defaults to `OPEN`. */
  const OPEN: string := "Open"
  const IN_PROGRESS: string := "In Progress"
  const CLOSED: string := "Closed"
  const STATUS_CHOICES: seq<string> := [OPEN, IN_PROGRESS, CLOSED]

  /**
   * A stored password hash. The PBKDF2-SHA256 scheme is modelled as an ideal one:
   * a digest identifies its password and nothing else.
   */
  datatype PasswordHash = Pbkdf2Sha256(digestOf: string)

  function GeneratePasswordHash(password: string): PasswordHash
  {
    Pbkdf2Sha256(password)
  }

  predicate CheckPasswordHash(hash: PasswordHash, password: string)
  {
    hash == GeneratePasswordHash(password)
  }

  /** A stored hash verifies exactly the password it was generated from. */
  lemma CheckAcceptsOnlyItsPassword(password: string, attempt: string)
    ensures CheckPasswordHash(GeneratePasswordHash(password), attempt) <==> attempt == password
  {
  }

  /** A row of `users`. The schema declares `role` as free text. */
  datatype User = User(username: string, password: PasswordHash, role: string)

  /** A row of `tickets`; `authorId` is `user_id`, `projectId` is `project_id`. */
  datatype Ticket = Ticket(
    subject: string,
    description: string,
    created: Timestamp,
    status: string,
    authorId: Id,
    projectId: Id)

  /** A row of `projects`. */
  datatype Project = Project(name: string, description: string, created: Timestamp)

  /**
   * The whole database. `members` is the `project_users` association table: its
   * composite primary key (project_id, user_id) makes it a set of pairs.
   */
  datatype Db = Db(
    users: map<Id, User>,
    projects: map<Id, Project>,
    members: set<(Id, Id)>,
    tickets: map<Id, Ticket>)

  /** What the login manager keeps between requests: the stored user id, if any. */
  type Session = Option<Id>

  const EMPTY_DB: Db := Db(map[], map[], {}, map[])

  // ---------------------------------------------------------------------------
  // Schema constraints and the invariants the routes maintain

  /** `users.username` is UNIQUE. */
  predicate UniqueUsernames(users: map<Id, User>)
  {
    forall a, b :: a in users && b in users && users[a].username == users[b].username ==> a == b
  }

  /** `projects.name` is UNIQUE. */
  predicate UniqueProjectNames(projects: map<Id, Project>)
  {
    forall a, b :: a in projects && b in projects && projects[a].name == projects[b].name ==> a == b
  }

  /** Both columns of `project_users` are foreign keys. */
  predicate MembersReferToRows(db: Db)
  {
    forall m :: m in db.members ==> m.0 in db.projects && m.1 in db.users
  }

  /** `tickets.user_id` and `tickets.project_id` are non-null foreign keys. */
  predicate TicketsReferToRows(db: Db)
  {
    forall t :: t in db.tickets ==> db.tickets[t].authorId in db.users && db.tickets[t].projectId in db.projects
  }

  /** Roles are free text in the schema, but only these two are ever written. */
  predicate RolesAreKnown(users: map<Id, User>)
  {
    forall u :: u in users ==> users[u].role == ADMIN || users[u].role == REGULAR
  }

  /** Statuses are free text in the schema, but only the form's choices are ever written. */
  predicate StatusesAreKnown(tickets: map<Id, Ticket>)
  {
    forall t :: t in tickets ==> tickets[t].status in STATUS_CHOICES
  }

  predicate Valid(db: Db)
  {
    && UniqueUsernames(db.users)
    && UniqueProjectNames(db.projects)
    && MembersReferToRows(db)
    && TicketsReferToRows(db)
    && RolesAreKnown(db.users)
    && StatusesAreKnown(db.tickets)
  }

  // ---------------------------------------------------------------------------
  // Row ids

  predicate IsUpperBound(g: Id, ids: set<Id>)
  {
    forall k :: k in ids ==> k <= g
  }

  lemma {:induction false} HasGreatest(ids: set<Id>)
    requires ids != {}
    ensures exists g :: g in ids && IsUpperBound(g, ids)
  {
    var x :| x in ids;
    if ids - {x} == {} {
      forall k | k in ids ensures k <= x {
        assert k !in ids - {x};
      }
      assert IsUpperBound(x, ids);
    } else {
      HasGreatest(ids - {x});
      var g :| g in ids - {x} && IsUpperBound(g, ids - {x});
      var top := if x <= g then g else x;
      forall k | k in ids ensures k <= top {
        if k != x {
          assert k in ids - {x};
        }
      }
      assert top in ids && IsUpperBound(top, ids);
    }
  }

  predicate IsLowerBound(l: Id, ids: set<Id>)
  {
    forall k :: k in ids ==> l <= k
  }

  lemma {:induction false} HasLeast(ids: set<Id>)
    requires ids != {}
    ensures exists l :: l in ids && IsLowerBound(l, ids)
  {
    var x :| x in ids;
    if ids - {x} == {} {
      forall k | k in ids ensures x <= k {
        assert k !in ids - {x};
      }
      assert IsLowerBound(x, ids);
    } else {
      HasLeast(ids - {x});
      var l :| l in ids - {x} && IsLowerBound(l, ids - {x});
      var bottom := if l <= x then l else x;
      forall k | k in ids ensures bottom <= k {
        if k != x {
          assert k in ids - {x};
        }
      }
      assert bottom in ids && IsLowerBound(bottom, ids);
    }
  }

  /** The smallest id of a non-empty set of ids. */
  function Least(ids: set<Id>): (l: Id)
    requires ids != {}
    ensures l in ids && forall k :: k in ids ==> l <= k
  {
    HasLeast(ids);
    var l :| l in ids && IsLowerBound(l, ids);
    l
  }

  /** The id SQLite gives a new row: one past the largest id in the table, 1 in an empty table. */
  function NewId(ids: set<Id>): (n: Id)
    ensures n !in ids
    ensures forall k :: k in ids ==> k < n
    ensures 0 < n
  {
    if ids == {} then 1
    else
      HasGreatest(ids);
      var g :| g in ids && IsUpperBound(g, ids);
      g + 1
  }

  /** `after` is `before` plus one row `v` under an id `before` did not use; nothing else differs. */
  ghost predicate AddsRow<T>(before: map<Id, T>, after: map<Id, T>, v: T)
  {
    exists id: Id :: id !in before && after == before[id := v]
  }

  /** Inserting a row under the id the database assigns. */
  function Insert<T>(table: map<Id, T>, v: T): (r: map<Id, T>)
    ensures AddsRow(table, r, v)
    ensures |r| == |table| + 1
  {
    var id := NewId(table.Keys);
    assert id !in table && table[id := v] == table[id := v];
    table[id := v]
  }

  /** An added row keeps every old row as it was and is the only new row. */
  lemma AddsRowFrame<T>(before: map<Id, T>, after: map<Id, T>, v: T)
    requires AddsRow(before, after, v)
    ensures before.Keys < after.Keys && |after.Keys - before.Keys| == 1
    ensures forall k :: k in before ==> after[k] == before[k]
    ensures forall k :: k in after && k !in before ==> after[k] == v
  {
    var id: Id :| id !in before && after == before[id := v];
    assert after.Keys - before.Keys == {id};
  }

  // ---------------------------------------------------------------------------
  // Lookups

  /**
   * `User.query.filter_by(username=name).first()`: a user with that name. The query fixes
   * no order, so when several match the model picks the least id; under the UNIQUE
   * constraint on usernames at most one ever matches.
   */
  function FindUserByName(users: map<Id, User>, name: string): (r: Option<Id>)
    ensures r.None? <==> forall id :: id in users ==> users[id].username != name
    ensures r.Some? ==> r.value in users && users[r.value].username == name
    ensures r.Some? ==> forall id :: id in users && users[id].username == name ==> r.value <= id
  {
    var named := set id | id in users && users[id].username == name;
    assert forall id :: id in users && users[id].username == name ==> id in named;
    if named == {} then None else Some(Least(named))
  }

  /** Under the UNIQUE constraint the lookup by name finds exactly the user with that name. */
  lemma FindUniqueUser(users: map<Id, User>, id: Id)
    requires UniqueUsernames(users)
    requires id in users
    ensures FindUserByName(users, users[id].username) == Some(id)
  {
  }

  /** `Project.query.filter_by(name=name).first()` found something. */
  predicate ProjectNameTaken(projects: map<Id, Project>, name: string)
  {
    exists id :: id in projects && projects[id].name == name
  }

  /** `User.query.filter_by(username=name).first()` found something. */
  predicate UsernameTaken(users: map<Id, User>, name: string)
  {
    exists id :: id in users && users[id].username == name
  }

  /** Some ticket row still points at project `pid`. */
  predicate ProjectHasTickets(db: Db, pid: Id)
  {
    exists t :: t in db.tickets && db.tickets[t].projectId == pid
  }

  /**
   * The login manager's user loader: the session's id resolves to its stored user,
   * or to nothing (anonymous) when there is no id or no such row.
   */
  function LoadUser(db: Db, session: Session): (r: Option<User>)
    ensures r.Some? <==> session.Some? && session.value in db.users
    ensures r.Some? ==> r.value == db.users[session.value]
  {
    match session
    case None => None
    case Some(id) => if id in db.users then Some(db.users[id]) else None
  }

  /** The id of `current_user` when it is authenticated. */
  function CurrentUserId(db: Db, session: Session): (r: Option<Id>)
    ensures r.Some? <==> LoadUser(db, session).Some?
    ensures r.Some? ==> r == session && r.value in db.users
  {
    if LoadUser(db, session).Some? then session else None
  }
}

=== FILE: Policy.dfy ===
/**
 * Who may do what, as a table independent of the route code: administrators may do
 * everything, members of a project may file and edit its tickets, and authors may
 * delete their own tickets. The routes are proved to ask exactly these questions.
 */
module Policy {
  import opened Models

  datatype Action =
    | CreateUser
    | CreateProject
    | DeleteProject
    | ManageMembers
    | CreateTicket(projectId: Id)
    | UpdateTicket(ticketId: Id)
    | DeleteTicket(ticketId: Id)

  predicate IsAdmin(db: Db, uid: Id)
  {
    uid in db.users && db.users[uid].role == ADMIN
  }

  predicate IsMember(db: Db, pid: Id, uid: Id)
  {
    (pid, uid) in db.members
  }

  predicate IsAuthor(db: Db, tid: Id, uid: Id)
  {
    tid in db.tickets && db.tickets[tid].authorId == uid
  }

  /** The permission table; ticket actions on a ticket that does not exist are denied. */
  predicate Permits(db: Db, uid: Id, a: Action)
  {
    match a
    case CreateUser => IsAdmin(db, uid)
    case CreateProject => IsAdmin(db, uid)
    case DeleteProject => IsAdmin(db, uid)
    case ManageMembers => IsAdmin(db, uid)
    case CreateTicket(pid) => IsAdmin(db, uid) || IsMember(db, pid, uid)
    case UpdateTicket(tid) =>
      tid in db.tickets && (IsAdmin(db, uid) || IsMember(db, db.tickets[tid].projectId, uid))
    case DeleteTicket(tid) => tid in db.tickets && (IsAdmin(db, uid) || IsAuthor(db, tid, uid))
  }

  /** An administrator is permitted every action on existing rows. */
  lemma AdminMayDoAnything(db: Db, uid: Id, a: Action)
    requires IsAdmin(db, uid)
    requires a.UpdateTicket? || a.DeleteTicket? ==> a.ticketId in db.tickets
    ensures Permits(db, uid, a)
  {
  }

  /** A user who is neither administrator nor member of anything is permitted only to delete own tickets. */
  lemma OutsiderMayOnlyDeleteOwnTickets(db: Db, uid: Id, a: Action)
    requires !IsAdmin(db, uid)
    requires forall pid :: !IsMember(db, pid, uid)
    requires Permits(db, uid, a)
    ensures a.DeleteTicket? && IsAuthor(db, a.ticketId, uid)
  {
  }
}

=== FILE: Properties.dfy ===
/**
 * Properties of the request handlers taken together: the schema invariants every request
 * keeps, what an anonymous or non-administrator caller can and cannot do, the idempotence
 * and undo laws of membership and ticket operations, and the session round trips.
 */
module Properties {
  import opened Text
  import opened Models
  import opened Forms
  import Policy
  import opened Routes

  // ---------------------------------------------------------------------------
  // Invariants

  /** A new user row with a fresh name and a known role keeps the database valid. */
  lemma AddUserKeepsValid(db: Db, after: Db, u: User)
    requires Valid(db)
    requires AddsRow(db.users, after.users, u) && after == db.(users := after.users)
    requires !UsernameTaken(db.users, u.username) && (u.role == ADMIN || u.role == REGULAR)
    ensures Valid(after)
  {
    AddsRowFrame(db.users, after.users, u);
  }

  lemma NewTicketKeepsValid(db: Db, session: Session, pid: Id, f: TicketForm, submitted: bool, now: Timestamp)
    requires Valid(db)
    ensures Valid(NewTicket(db, session, pid, f, submitted, now).db)
  {
    var r := NewTicket(db, session, pid, f, submitted, now);
    if r.outcome.Ok? {
      AddsRowFrame(db.tickets, r.db.tickets, Ticket(f.subject, f.description, now, f.status, session.value, pid));
    }
  }

  lemma CreateProjectKeepsValid(db: Db, session: Session, f: ProjectForm, submitted: bool, now: Timestamp)
    requires Valid(db)
    ensures Valid(CreateProject(db, session, f, submitted, now).db)
  {
    var r := CreateProject(db, session, f, submitted, now);
    if r.outcome.Ok? {
      AddsRowFrame(db.projects, r.db.projects, Project(f.name, f.description, now));
    }
  }

  /** Deleting a project keeps every foreign key intact: it refuses while tickets remain. */
  lemma DeleteProjectKeepsValid(db: Db, session: Session, pid: Id, submitted: bool)
    requires Valid(db)
    ensures Valid(DeleteProject(db, session, pid, submitted).db)
  {
    var r := DeleteProject(db, session, pid, submitted);
    if r.outcome.Ok? {
      assert !ProjectHasTickets(db, pid);
      assert TicketsReferToRows(r.db);
    }
  }

  lemma RegisterKeepsValid(db: Db, session: Session, f: RegistrationForm, submitted: bool)
    requires Valid(db)
    ensures Valid(Register(db, session, f, submitted).db)
  {
    var r := Register(db, session, f, submitted);
    if r.outcome == Ok(AccountCreated) {
      AddUserKeepsValid(db, r.db, User(f.username, GeneratePasswordHash(f.password), REGULAR));
    }
  }

  lemma CreateUserKeepsValid(db: Db, session: Session, f: RegistrationForm, submitted: bool)
    requires Valid(db)
    ensures Valid(CreateUser(db, session, f, submitted).db)
  {
    var r := CreateUser(db, session, f, submitted);
    if r.outcome == Ok(UserCreated) {
      var role := if f.isAdmin then ADMIN else REGULAR;
      AddUserKeepsValid(db, r.db, User(f.username, GeneratePasswordHash(f.password), role));
    }
  }

  lemma UpdateTicketKeepsValid(db: Db, session: Session, tid: Id, f: TicketForm, submitted: bool)
    requires Valid(db)
    ensures Valid(UpdateTicket(db, session, tid, f, submitted).db)
  {
  }

  lemma DeleteTicketKeepsValid(db: Db, session: Session, tid: Id, submitted: bool)
    requires Valid(db)
    ensures Valid(DeleteTicket(db, session, tid, submitted).db)
  {
  }

  lemma AssignUserKeepsValid(db: Db, session: Session, pid: Id, f: AssignUserForm, submitted: bool)
    requires Valid(db)
    ensures Valid(AssignUser(db, session, pid, f, submitted).db)
  {
  }

  lemma RemoveUserKeepsValid(db: Db, session: Session, pid: Id, uid: Id)
    requires Valid(db)
    ensures Valid(RemoveUser(db, session, pid, uid).db)
  {
  }

  /** Handling any request from a valid database leaves a valid database. */
  lemma HandlePreservesValid(db: Db, session: Session, req: Request, submitted: bool)
    requires Valid(db)
    ensures Valid(Handle(db, session, req, submitted).db)
  {
    match req {
      case RegisterRequest(f) => RegisterKeepsValid(db, session, f, submitted);
      case LoginRequest(f) =>
      case LoginAsRequest(name) =>
      case LogoutRequest =>
      case CreateUserRequest(f) => CreateUserKeepsValid(db, session, f, submitted);
      case NewTicketRequest(pid, f, now) => NewTicketKeepsValid(db, session, pid, f, submitted, now);
      case UpdateTicketRequest(tid, f) => UpdateTicketKeepsValid(db, session, tid, f, submitted);
      case DeleteTicketRequest(tid) => DeleteTicketKeepsValid(db, session, tid, submitted);
      case CreateProjectRequest(f, now) => CreateProjectKeepsValid(db, session, f, submitted, now);
      case AssignUserRequest(pid, f) => AssignUserKeepsValid(db, session, pid, f, submitted);
      case DeleteProjectRequest(pid) => DeleteProjectKeepsValid(db, session, pid, submitted);
      case RemoveUserRequest(pid, uid) => RemoveUserKeepsValid(db, session, pid, uid);
    }
  }

  /** Handles a sequence of requests, each with its `submitted` flag, one after another. */
  function Run(db: Db, session: Session, reqs: seq<(Request, bool)>): (Db, Session)
    decreases |reqs|
  {
    if reqs == [] then (db, session)
    else
      var step := Handle(db, session, reqs[0].0, reqs[0].1);
      Run(step.db, step.session, reqs[1..])
  }

  /** Every database reachable from a valid one satisfies the schema invariants. */
  lemma {:induction false} RunPreservesValid(db: Db, session: Session, reqs: seq<(Request, bool)>)
    requires Valid(db)
    ensures Valid(Run(db, session, reqs).0)
    decreases |reqs|
  {
    if reqs != [] {
      var step := Handle(db, session, reqs[0].0, reqs[0].1);
      HandlePreservesValid(db, session, reqs[0].0, reqs[0].1);
      RunPreservesValid(step.db, step.session, reqs[1..]);
    }
  }

  /**
   * The database as deployed: empty but for one administrator account, which has to be
   * created outside the application because every route that creates an administrator
   * needs one already (see `NoAdminEver`).
   */
  function Seeded(admin: User): Db
  {
    EMPTY_DB.(users := map[1 := admin])
  }

  /**
   * Every database the application can build from a deployed one satisfies the schema
   * invariants, and its stored strings pass their form validators when the seeded
   * administrator's username does.
   */
  lemma ReachableIsValid(admin: User, session: Session, reqs: seq<(Request, bool)>)
    requires admin.role == ADMIN
    ensures Valid(Run(Seeded(admin), session, reqs).0)
    ensures DataRequired(admin.username) && LengthBetween(admin.username, 2, 20) ==>
      FieldsConform(Run(Seeded(admin), session, reqs).0)
  {
    RunPreservesValid(Seeded(admin), session, reqs);
    if DataRequired(admin.username) && LengthBetween(admin.username, 2, 20) {
      RunKeepsFieldsConform(Seeded(admin), session, reqs);
    }
  }

  // ---------------------------------------------------------------------------
  // Stored strings and the form validators

  /** Every stored username passes the username validators of the registration form. */
  predicate UsernamesConform(users: map<Id, User>)
  {
    forall u :: u in users ==> DataRequired(users[u].username) && LengthBetween(users[u].username, 2, 20)
  }

  /** Every stored project name passes the project form's name validators. */
  predicate ProjectNamesConform(projects: map<Id, Project>)
  {
    forall p :: p in projects ==> DataRequired(projects[p].name) && LengthBetween(projects[p].name, 1, 100)
  }

  /** Every stored ticket subject and description passes the ticket form's validators. */
  predicate TicketTextsConform(tickets: map<Id, Ticket>)
  {
    forall t :: t in tickets ==>
      && DataRequired(tickets[t].subject) && LengthBetween(tickets[t].subject, 1, 100)
      && DataRequired(tickets[t].description)
  }

  predicate FieldsConform(db: Db)
  {
    UsernamesConform(db.users) && ProjectNamesConform(db.projects) && TicketTextsConform(db.tickets)
  }

  lemma AddUserKeepsFieldsConform(db: Db, after: Db, u: User)
    requires FieldsConform(db)
    requires AddsRow(db.users, after.users, u) && after == db.(users := after.users)
    requires DataRequired(u.username) && LengthBetween(u.username, 2, 20)
    ensures FieldsConform(after)
  {
    AddsRowFrame(db.users, after.users, u);
  }

  lemma RegisterKeepsFieldsConform(db: Db, session: Session, f: RegistrationForm, submitted: bool)
    requires FieldsConform(db)
    ensures FieldsConform(Register(db, session, f, submitted).db)
  {
    var r := Register(db, session, f, submitted);
    if r.outcome == Ok(AccountCreated) {
      AddUserKeepsFieldsConform(db, r.db, User(f.username, GeneratePasswordHash(f.password), REGULAR));
    }
  }

  lemma CreateUserKeepsFieldsConform(db: Db, session: Session, f: RegistrationForm, submitted: bool)
    requires FieldsConform(db)
    ensures FieldsConform(CreateUser(db, session, f, submitted).db)
  {
    var r := CreateUser(db, session, f, submitted);
    if r.outcome == Ok(UserCreated) {
      var role := if f.isAdmin then ADMIN else REGULAR;
      AddUserKeepsFieldsConform(db, r.db, User(f.username, GeneratePasswordHash(f.password), role));
    }
  }

  lemma NewTicketKeepsFieldsConform(db: Db, session: Session, pid: Id, f: TicketForm, submitted: bool, now: Timestamp)
    requires FieldsConform(db)
    ensures FieldsConform(NewTicket(db, session, pid, f, submitted, now).db)
  {
    var r := NewTicket(db, session, pid, f, submitted, now);
    if r.outcome.Ok? {
      AddsRowFrame(db.tickets, r.db.tickets, Ticket(f.subject, f.description, now, f.status, session.value, pid));
    }
  }

  lemma UpdateTicketKeepsFieldsConform(db: Db, session: Session, tid: Id, f: TicketForm, submitted: bool)
    requires FieldsConform(db)
    ensures FieldsConform(UpdateTicket(db, session, tid, f, submitted).db)
  {
  }

  lemma CreateProjectKeepsFieldsConform(db: Db, session: Session, f: ProjectForm, submitted: bool, now: Timestamp)
    requires FieldsConform(db)
    ensures FieldsConform(CreateProject(db, session, f, submitted, now).db)
  {
    var r := CreateProject(db, session, f, submitted, now);
    if r.outcome.Ok? {
      AddsRowFrame(db.projects, r.db.projects, Project(f.name, f.description, now));
    }
  }

  /** Every request keeps every stored username, project name and ticket text valid for its form. */
  lemma HandleKeepsFieldsConform(db: Db, session: Session, req: Request, submitted: bool)
    requires FieldsConform(db)
    ensures FieldsConform(Handle(db, session, req, submitted).db)
  {
    match req {
      case RegisterRequest(f) => RegisterKeepsFieldsConform(db, session, f, submitted);
      case CreateUserRequest(f) => CreateUserKeepsFieldsConform(db, session, f, submitted);
      case NewTicketRequest(pid, f, now) => NewTicketKeepsFieldsConform(db, session, pid, f, submitted, now);
      case UpdateTicketRequest(tid, f) => UpdateTicketKeepsFieldsConform(db, session, tid, f, submitted);
      case CreateProjectRequest(f, now) => CreateProjectKeepsFieldsConform(db, session, f, submitted, now);
      case _ =>
    }
  }

  lemma {:induction false} RunKeepsFieldsConform(db: Db, session: Session, reqs: seq<(Request, bool)>)
    requires FieldsConform(db)
    ensures FieldsConform(Run(db, session, reqs).0)
    decreases |reqs|
  {
    if reqs != [] {
      var step := Handle(db, session, reqs[0].0, reqs[0].1);
      HandleKeepsFieldsConform(db, session, reqs[0].0, reqs[0].1);
      RunKeepsFieldsConform(step.db, step.session, reqs[1..]);
    }
  }

  // ---------------------------------------------------------------------------
  // Frames and roles

  /** Users are never edited or deleted: every request keeps every existing user row as it was. */
  lemma UsersAreAppendOnly(db: Db, session: Session, req: Request, submitted: bool)
    ensures var r := Handle(db, session, req, submitted);
      forall u :: u in db.users ==> u in r.db.users && r.db.users[u] == db.users[u]
  {
    var r := Handle(db, session, req, submitted);
    match req {
      case RegisterRequest(f) =>
        if r.outcome.Ok? && r.db != db {
          AddsRowFrame(db.users, r.db.users, User(f.username, GeneratePasswordHash(f.password), REGULAR));
        }
      case CreateUserRequest(f) =>
        if r.outcome.Ok? {
          var role := if f.isAdmin then ADMIN else REGULAR;
          AddsRowFrame(db.users, r.db.users, User(f.username, GeneratePasswordHash(f.password), role));
        }
      case _ =>
    }
  }

  /** A ticket row keeps its author, project and creation time from `before` to `after`. */
  predicate OwnershipKept(before: map<Id, Ticket>, after: map<Id, Ticket>)
  {
    forall t :: t in before && t in after ==>
      && after[t].authorId == before[t].authorId
      && after[t].projectId == before[t].projectId
      && after[t].created == before[t].created
  }

  lemma NewTicketKeepsOwnership(db: Db, session: Session, pid: Id, f: TicketForm, submitted: bool, now: Timestamp)
    ensures OwnershipKept(db.tickets, NewTicket(db, session, pid, f, submitted, now).db.tickets)
  {
    var r := NewTicket(db, session, pid, f, submitted, now);
    if r.outcome.Ok? {
      AddsRowFrame(db.tickets, r.db.tickets, Ticket(f.subject, f.description, now, f.status, session.value, pid));
    }
  }

  /** A ticket that survives a request keeps its author, project and creation time. */
  lemma TicketOwnershipIsFixed(db: Db, session: Session, req: Request, submitted: bool)
    ensures OwnershipKept(db.tickets, Handle(db, session, req, submitted).db.tickets)
  {
    match req {
      case NewTicketRequest(pid, f, now) => NewTicketKeepsOwnership(db, session, pid, f, submitted, now);
      case _ =>
    }
  }

  /** No user row has the administrator role. */
  predicate NoAdmin(users: map<Id, User>)
  {
    forall u :: u in users ==> users[u].role != ADMIN
  }

  /**
   * Self-registration only ever creates regular accounts, so administrators come only from
   * administrators: a request against a database without one never creates one, and, since
   * only an administrator may create or delete projects, leaves the projects as they were.
   */
  lemma NoAdminFromNowhere(db: Db, session: Session, req: Request, submitted: bool)
    requires NoAdmin(db.users)
    ensures var r := Handle(db, session, req, submitted);
      NoAdmin(r.db.users) && r.db.projects == db.projects
  {
    var r := Handle(db, session, req, submitted);
    match req {
      case RegisterRequest(f) =>
        if r.outcome.Ok? && r.db != db {
          AddsRowFrame(db.users, r.db.users, User(f.username, GeneratePasswordHash(f.password), REGULAR));
        }
      case _ =>
    }
  }

  /**
   * Starting from a database without an administrator, no sequence of requests ever
   * produces one, nor creates or deletes a project.
   */
  lemma {:induction false} NoAdminEver(db: Db, session: Session, reqs: seq<(Request, bool)>)
    requires NoAdmin(db.users)
    ensures NoAdmin(Run(db, session, reqs).0.users)
    ensures Run(db, session, reqs).0.projects == db.projects
    decreases |reqs|
  {
    if reqs != [] {
      var step := Handle(db, session, reqs[0].0, reqs[0].1);
      NoAdminFromNowhere(db, session, reqs[0].0, reqs[0].1);
      NoAdminEver(step.db, step.session, reqs[1..]);
    }
  }

  // ---------------------------------------------------------------------------
  // Guards

  /** Rejected requests change nothing: not the database and not the session. */
  lemma RejectionChangesNothing(db: Db, session: Session, req: Request, submitted: bool)
    ensures var r := Handle(db, session, req, submitted);
      !r.outcome.Ok? ==> r.db == db && r.session == session
  {
  }

  /** The `login_required` routes answer an anonymous caller with the login redirect, and only them. */
  lemma AnonymousIsUnauthorized(db: Db, session: Session, req: Request, submitted: bool)
    ensures var r := Handle(db, session, req, submitted);
      r.outcome == Unauthorized <==> LoginRequired(req) && !Authenticated(db, session)
  {
  }

  /**
   * A session whose user row is gone is as anonymous as no session at all: every request
   * ends the same way and leaves the same database, and on a `login_required` route the
   * session itself is left alone too.
   */
  lemma StaleSessionIsAnonymous(db: Db, uid: Id, req: Request, submitted: bool)
    requires uid !in db.users
    ensures Handle(db, Some(uid), req, submitted).outcome == Handle(db, None, req, submitted).outcome
    ensures Handle(db, Some(uid), req, submitted).db == Handle(db, None, req, submitted).db
    ensures LoginRequired(req) ==>
      Handle(db, Some(uid), req, submitted) == Handle(db, None, req, submitted).(session := Some(uid))
  {
  }

  /**
   * A logged-in caller who is not an administrator is refused every administrative
   * action once the route's earlier checks have passed, and changes nothing.
   */
  lemma NonAdminCannotAdminister(db: Db, session: Session, req: Request, submitted: bool)
    requires Authenticated(db, session) && !Policy.IsAdmin(db, session.value)
    ensures var r := Handle(db, session, req, submitted);
      && (req.CreateUserRequest? ==> r.outcome == Forbidden)
      && (req.CreateProjectRequest? ==> r.outcome == Forbidden)
      && (req.AssignUserRequest? && req.projectId in db.projects && submitted && AssignUserValid(req.assign)
          ==> r.outcome == Forbidden)
      && (req.DeleteProjectRequest? && req.projectId in db.projects && submitted
          ==> r.outcome == Forbidden)
      && (req.RemoveUserRequest? && req.projectId in db.projects ==> r.outcome == Forbidden)
      && ((|| req.CreateUserRequest? || req.CreateProjectRequest? || req.AssignUserRequest?
           || req.DeleteProjectRequest? || req.RemoveUserRequest?) ==> r.db == db)
  {
  }

  /** Filing a ticket in an existing project is allowed exactly to administrators and members. */
  lemma NewTicketAllowedIffAdminOrMember(db: Db, uid: Id, pid: Id, f: TicketForm, now: Timestamp)
    requires uid in db.users && pid in db.projects
    ensures var r := NewTicket(db, Some(uid), pid, f, true, now);
      && (r.outcome == Forbidden <==> !(db.users[uid].role == ADMIN || (pid, uid) in db.members))
      && (TicketValid(f) ==> (r.outcome.Ok? <==> db.users[uid].role == ADMIN || (pid, uid) in db.members))
  {
  }

  /** Editing an existing ticket of an existing project is allowed exactly to administrators and members. */
  lemma UpdateTicketAllowedIffAdminOrMember(db: Db, uid: Id, tid: Id, f: TicketForm)
    requires Valid(db) && uid in db.users && tid in db.tickets
    ensures var pid := db.tickets[tid].projectId;
      var r := UpdateTicket(db, Some(uid), tid, f, true);
      && (r.outcome == Forbidden <==> !(db.users[uid].role == ADMIN || (pid, uid) in db.members))
      && (TicketValid(f) ==> (r.outcome.Ok? <==> db.users[uid].role == ADMIN || (pid, uid) in db.members))
  {
  }

  // ---------------------------------------------------------------------------
  // Tickets

  /** Deleting the row a request just added, as its author, gives back the database before it. */
  lemma AuthorDeletesFiledTicket(db: Db, filed: Db, tid: Id, t: Ticket)
    requires t.authorId in db.users
    requires tid !in db.tickets && filed == db.(tickets := db.tickets[tid := t])
    ensures DeleteTicket(filed, Some(t.authorId), tid, true) == Step(Ok(TicketDeleted), db, Some(t.authorId))
  {
    assert filed.tickets - {tid} == db.tickets;
  }

  /** On a ticket just added by its author, another regular user is refused and an administrator is not. */
  lemma OthersDeleteFiledTicket(db: Db, filed: Db, tid: Id, t: Ticket, other: Id, admin: Id)
    requires t.authorId in db.users && other in db.users && admin in db.users
    requires other != t.authorId && db.users[other].role != ADMIN && db.users[admin].role == ADMIN
    requires tid !in db.tickets && filed == db.(tickets := db.tickets[tid := t])
    ensures DeleteTicket(filed, Some(other), tid, true).outcome == Forbidden
    ensures DeleteTicket(filed, Some(admin), tid, true).outcome == Ok(TicketDeleted)
  {
  }

  /**
   * A ticket filed by a member can be deleted by its author and by any administrator, but
   * not by another regular user; the author's deletion restores the database exactly.
   */
  lemma TicketDeletionRights(db: Db, author: Id, other: Id, admin: Id, pid: Id, f: TicketForm, now: Timestamp)
    requires author in db.users && other in db.users && admin in db.users
    requires other != author && db.users[other].role != ADMIN && db.users[admin].role == ADMIN
    requires pid in db.projects && (pid, author) in db.members && TicketValid(f)
    ensures var filed := NewTicket(db, Some(author), pid, f, true, now);
      && filed.outcome == Ok(TicketCreated)
      && forall tid :: tid in filed.db.tickets && tid !in db.tickets ==>
        && DeleteTicket(filed.db, Some(other), tid, true).outcome == Forbidden
        && DeleteTicket(filed.db, Some(admin), tid, true).outcome == Ok(TicketDeleted)
        && DeleteTicket(filed.db, Some(author), tid, true) == Step(Ok(TicketDeleted), db, Some(author))
  {
    var filed := NewTicket(db, Some(author), pid, f, true, now);
    var t := Ticket(f.subject, f.description, now, f.status, author, pid);
    var id: Id :| id !in db.tickets && filed.db.tickets == db.tickets[id := t];
    assert filed.db.tickets.Keys - db.tickets.Keys == {id};
    AuthorDeletesFiledTicket(db, filed.db, id, t);
    OthersDeleteFiledTicket(db, filed.db, id, t, other, admin);
  }

  /** Submitting the same edit twice has the effect of submitting it once. */
  lemma UpdateTicketIdempotent(db: Db, session: Session, tid: Id, f: TicketForm)
    ensures var once := UpdateTicket(db, session, tid, f, true);
      UpdateTicket(once.db, session, tid, f, true).db == once.db
  {
    var once := UpdateTicket(db, session, tid, f, true);
    if once.outcome.Ok? {
      var twice := UpdateTicket(once.db, session, tid, f, true);
      assert twice.outcome.Ok?;
      assert twice.db.tickets[tid] == once.db.tickets[tid];
      assert twice.db.tickets == once.db.tickets;
    }
  }

  // ---------------------------------------------------------------------------
  // Projects and membership

  /** Deleting, as an administrator, the project a request just added gives back the database before it. */
  lemma AdminDeletesNewProject(db: Db, created: Db, admin: Id, pid: Id, p: Project)
    requires Valid(db) && admin in db.users && db.users[admin].role == ADMIN
    requires pid !in db.projects && created == db.(projects := db.projects[pid := p])
    ensures DeleteProject(created, Some(admin), pid, true) == Step(Ok(ProjectDeleted), db, Some(admin))
  {
    assert !ProjectHasTickets(created, pid);
    assert created.projects - {pid} == db.projects;
    assert (set m | m in db.members && m.0 != pid) == db.members;
  }

  /** An administrator's valid project form adds exactly one project row, under a fresh id. */
  lemma CreatedProjectIsOneRow(db: Db, admin: Id, f: ProjectForm, now: Timestamp) returns (id: Id)
    requires admin in db.users && db.users[admin].role == ADMIN && ProjectValid(f, db.projects)
    ensures var created := CreateProject(db, Some(admin), f, true, now);
      && created.outcome == Ok(ProjectCreated)
      && id !in db.projects
      && created.db == db.(projects := db.projects[id := Project(f.name, f.description, now)])
  {
    var created := CreateProject(db, Some(admin), f, true, now);
    id :| id !in db.projects && created.db.projects == db.projects[id := Project(f.name, f.description, now)];
  }

  /** Deleting a project that was just created, before anything is filed in it, restores the database. */
  lemma DeleteUndoesCreateProject(db: Db, admin: Id, f: ProjectForm, now: Timestamp)
    requires Valid(db) && admin in db.users && db.users[admin].role == ADMIN && ProjectValid(f, db.projects)
    ensures var created := CreateProject(db, Some(admin), f, true, now);
      && created.outcome == Ok(ProjectCreated)
      && forall pid :: pid in created.db.projects && pid !in db.projects ==>
        DeleteProject(created.db, Some(admin), pid, true) == Step(Ok(ProjectDeleted), db, Some(admin))
  {
    var id := CreatedProjectIsOneRow(db, admin, f, now);
    var created := db.(projects := db.projects[id := Project(f.name, f.description, now)]);
    AdminDeletesNewProject(db, created, admin, id, Project(f.name, f.description, now));
    forall pid | pid in created.projects && pid !in db.projects
      ensures DeleteProject(created, Some(admin), pid, true) == Step(Ok(ProjectDeleted), db, Some(admin))
    {
      assert pid == id;
    }
  }

  /** Assigning the same name twice: the second request reports the membership and changes nothing. */
  lemma AssignIdempotent(db: Db, admin: Id, pid: Id, f: AssignUserForm)
    requires admin in db.users && db.users[admin].role == ADMIN && pid in db.projects && AssignUserValid(f)
    ensures var first := AssignUser(db, Some(admin), pid, f, true);
      var second := AssignUser(first.db, Some(admin), pid, f, true);
      && second.db == first.db
      && (UsernameTaken(db.users, Strip(f.username)) ==> second.outcome == Ok(AlreadyAssigned))
      && (!UsernameTaken(db.users, Strip(f.username)) ==> second.outcome == Ok(NoSuchUser))
  {
    var first := AssignUser(db, Some(admin), pid, f, true);
    assert first.db.users == db.users && first.db.projects == db.projects;
  }

  /** Removing the same membership twice: the second request reports it missing and changes nothing. */
  lemma RemoveIdempotent(db: Db, admin: Id, pid: Id, uid: Id)
    requires admin in db.users && db.users[admin].role == ADMIN && pid in db.projects && uid in db.users
    ensures var first := RemoveUser(db, Some(admin), pid, uid);
      var second := RemoveUser(first.db, Some(admin), pid, uid);
      second == Step(Ok(NotAssigned), first.db, Some(admin))
  {
  }

  /** Assigning a user who was not a member and then removing them restores the database. */
  lemma RemoveUndoesAssign(db: Db, admin: Id, pid: Id, uid: Id, f: AssignUserForm)
    requires UniqueUsernames(db.users)
    requires admin in db.users && db.users[admin].role == ADMIN && pid in db.projects && AssignUserValid(f)
    requires uid in db.users && db.users[uid].username == Strip(f.username) && (pid, uid) !in db.members
    ensures var added := AssignUser(db, Some(admin), pid, f, true);
      && added.outcome == Ok(UserAssigned)
      && RemoveUser(added.db, Some(admin), pid, uid) == Step(Ok(UserRemoved), db, Some(admin))
  {
    FindUniqueUser(db.users, uid);
    var added := AssignUser(db, Some(admin), pid, f, true);
    assert added.db.members == db.members + {(pid, uid)};
    assert added.db.members - {(pid, uid)} == db.members;
  }

  /**
   * Removing a member and assigning them again by their username restores the database,
   * provided the username has no surrounding white space (see `PaddedNameNeverAssigned`).
   */
  lemma AssignUndoesRemove(db: Db, admin: Id, pid: Id, uid: Id)
    requires UniqueUsernames(db.users)
    requires admin in db.users && db.users[admin].role == ADMIN && pid in db.projects
    requires uid in db.users && (pid, uid) in db.members
    requires HasContent(db.users[uid].username) && Strip(db.users[uid].username) == db.users[uid].username
    ensures var removed := RemoveUser(db, Some(admin), pid, uid);
      && removed.outcome == Ok(UserRemoved)
      && AssignUser(removed.db, Some(admin), pid, AssignUserForm(db.users[uid].username), true)
         == Step(Ok(UserAssigned), db, Some(admin))
  {
    FindUniqueUser(db.users, uid);
    var removed := RemoveUser(db, Some(admin), pid, uid);
    assert removed.db.members + {(pid, uid)} == db.members;
  }

  /** The assign step only ever adds a user whose username is the given name. */
  lemma AssignMemberAddsNamedUser(db: Db, pid: Id, name: string, uid: Id)
    requires (pid, uid) in AssignMember(db, pid, name).1.members && (pid, uid) !in db.members
    ensures uid in db.users && db.users[uid].username == name
  {
  }

  /**
   * The assign form strips its input but registration does not, so a user whose username
   * has leading or trailing white space can never be assigned to a project.
   */
  lemma PaddedNameNeverAssigned(db: Db, session: Session, pid: Id, f: AssignUserForm, submitted: bool, uid: Id)
    requires uid in db.users && Strip(db.users[uid].username) != db.users[uid].username
    ensures var r := AssignUser(db, session, pid, f, submitted);
      (pid, uid) in r.db.members ==> (pid, uid) in db.members
  {
    var r := AssignUser(db, session, pid, f, submitted);
    if (pid, uid) in r.db.members && (pid, uid) !in db.members {
      assert r.outcome.Ok?;
      AssignMemberAddsNamedUser(db, pid, Strip(f.username), uid);
      StripIdempotent(f.username);
      assert false;
    }
  }

  // ---------------------------------------------------------------------------
  // Sessions

  /** An account just registered can log in with the password it was registered with. */
  lemma RegisterThenLogin(db: Db, f: RegistrationForm)
    requires RegistrationValid(f, db.users)
    ensures var registered := Register(db, None, f, true);
      && registered.outcome == Ok(AccountCreated)
      && var login := Login(registered.db, None, LoginForm(f.username, f.password), true);
      && login.outcome == Ok(LoggedIn)
      && login.session.Some? && login.session.value !in db.users
      && registered.db.users[login.session.value] == User(f.username, GeneratePasswordHash(f.password), REGULAR)
  {
    var registered := Register(db, None, f, true);
    var u := User(f.username, GeneratePasswordHash(f.password), REGULAR);
    AddsRowFrame(db.users, registered.db.users, u);
    RegistrationImpliesLoginForm(f, db.users);
    var found := FindUserByName(registered.db.users, f.username);
    assert found.Some?;
    assert found.value !in db.users;
  }

  /** Registering the same username twice: the second attempt is refused by the form. */
  lemma DuplicateRegistrationRefused(db: Db, f: RegistrationForm, g: RegistrationForm)
    requires RegistrationValid(f, db.users) && g.username == f.username
    ensures var first := Register(db, None, f, true);
      && first.outcome == Ok(AccountCreated)
      && Register(first.db, None, g, true) == Step(Invalid, first.db, None)
  {
    var first := Register(db, None, f, true);
    var u := User(f.username, GeneratePasswordHash(f.password), REGULAR);
    AddsRowFrame(db.users, first.db.users, u);
    var id :| id in first.db.users && id !in db.users;
    assert first.db.users[id].username == g.username;
  }

  /**
   * With unique usernames, a submitted, well-formed login succeeds exactly when a user of
   * that name exists and the password verifies against its hash.
   */
  lemma LoginIffCredentials(db: Db, f: LoginForm)
    requires UniqueUsernames(db.users) && LoginValid(f)
    ensures var r := Login(db, None, f, true);
      && (r.outcome == Ok(LoggedIn) <==>
           exists uid :: uid in db.users && db.users[uid].username == f.username
             && CheckPasswordHash(db.users[uid].password, f.password))
      && (r.outcome != Ok(LoggedIn) ==> r.outcome == BadCredentials && r.session.None?)
  {
    var r := Login(db, None, f, true);
    if uid :| (uid in db.users && db.users[uid].username == f.username
               && CheckPasswordHash(db.users[uid].password, f.password)) {
      FindUniqueUser(db.users, uid);
    }
  }

  /** `login_as` lets anyone become any existing user without a credential. */
  lemma LoginAsAnyone(db: Db, session: Session, uid: Id)
    requires UniqueUsernames(db.users) && uid in db.users && IsPathSegment(db.users[uid].username)
    ensures LoginAs(db, session, db.users[uid].username) == Step(Ok(LoggedInAs), db, Some(uid))
  {
    FindUniqueUser(db.users, uid);
  }

  /**
   * Registration puts no restriction on the characters of a username, so an account such
   * as "a/b" can be created, yet `login_as` can never reach it: the URL does not match.
   */
  lemma SlashedUsernameEscapesLoginAs(db: Db, session: Session)
    ensures RegistrationValid(RegistrationForm("a/b", false, "secret", "secret"), map[])
    ensures LoginAs(db, session, "a/b") == Step(NotFound, db, session)
  {
    assert !IsSpace("a/b"[0]);
    assert !IsSpace("secret"[0]);
    assert "a/b"[1] == '/';
  }

  /** After logging out, every `login_required` route answers with the login redirect. */
  lemma LogoutEndsAccess(db: Db, session: Session, req: Request, submitted: bool)
    requires LoginRequired(req)
    ensures var out := Logout(db, session);
      Handle(out.db, out.session, req, submitted).outcome == Unauthorized
  {
  }

  /** The account `create_user` adds is an administrator exactly when the box was ticked. */
  lemma CreatedRoleFollowsCheckbox(db: Db, session: Session, f: RegistrationForm)
    ensures var r := CreateUser(db, session, f, true);
      r.outcome.Ok? ==>
        forall u :: u in r.db.users && u !in db.users ==> (r.db.users[u].role == ADMIN <==> f.isAdmin)
  {
    var r := CreateUser(db, session, f, true);
    if r.outcome.Ok? {
      var role := if f.isAdmin then ADMIN else REGULAR;
      AddsRowFrame(db.users, r.db.users, User(f.username, GeneratePasswordHash(f.password), role));
    }
  }
}

=== FILE: Routes.dfy ===
/**
 * The request handlers as pure transitions. Each takes the database, the caller's session,
 * the route's arguments and form, and whether the request was a POST carrying a valid
 * anti-forgery token (`submitted`, the half of `validate_on_submit` that is not the field
 * validators), and returns what the handler answers together with the database and session
 * it leaves behind. The checks run in the order the handlers perform them.
 */
module Routes {
  import opened Text
  import opened Models
  import opened Forms
  import Policy

  /** The flash message that goes with a redirect; `Redirected` when nothing is flashed. */
  datatype Msg =
    | Redirected
    | AccountCreated
    | AlreadyLoggedIn
    | LoggedIn
    | LoggedInAs
    | UserNotFound
    | LoggedOut
    | UserCreated
    | TicketCreated
    | TicketUpdated
    | TicketDeleted
    | ProjectCreated
    | ProjectDeleted
    | UserAssigned
    | AlreadyAssigned
    | NoSuchUser
    | UserRemoved
    | NotAssigned

  /**
   * How a request ends: a redirect with a message, the `login_required` redirect to the
   * login page, `abort(403)`, `get_or_404`, `abort(400)`, the form page rendered again
   * (a GET, or a POST whose fields do not validate), the login page rendered again after
   * a failed password check, or an unhandled exception (HTTP 500, nothing committed).
   */
  datatype Outcome =
    | Ok(msg: Msg)
    | Unauthorized
    | Forbidden
    | NotFound
    | BadRequest
    | Invalid
    | BadCredentials
    | ServerError

  datatype Step = Step(outcome: Outcome, db: Db, session: Session)

  /** `current_user.is_authenticated`. */
  predicate Authenticated(db: Db, session: Session)
  {
    CurrentUserId(db, session).Some?
  }

  /** The policy question for the authenticated caller. */
  predicate CallerMay(db: Db, session: Session, a: Policy.Action)
    requires Authenticated(db, session)
  {
    Policy.Permits(db, session.value, a)
  }

  /** `GET/POST /register`: open to anonymous callers; always creates a regular account. */
  function Register(db: Db, session: Session, f: RegistrationForm, submitted: bool): (r: Step)
    ensures r.session == session
    ensures Authenticated(db, session) ==> r.outcome == Ok(AlreadyLoggedIn) && r.db == db
    ensures r.outcome == Ok(AccountCreated) <==>
      !Authenticated(db, session) && submitted && RegistrationValid(f, db.users)
    ensures r.outcome == Invalid <==>
      !Authenticated(db, session) && !(submitted && RegistrationValid(f, db.users))
    ensures r.outcome == Ok(AccountCreated) ==>
      && AddsRow(db.users, r.db.users, User(f.username, GeneratePasswordHash(f.password), REGULAR))
      && r.db == db.(users := r.db.users)
    ensures r.outcome != Ok(AccountCreated) ==> r.db == db
  {
    if CurrentUserId(db, session).Some? then
      Step(Ok(AlreadyLoggedIn), db, session)
    else if submitted && RegistrationValid(f, db.users) then
      var user := User(f.username, GeneratePasswordHash(f.password), REGULAR);
      Step(Ok(AccountCreated), db.(users := Insert(db.users, user)), session)
    else
      Step(Invalid, db, session)
  }

  /** `GET/POST /login`: the session changes only when the named user's password verifies. */
  function Login(db: Db, session: Session, f: LoginForm, submitted: bool): (r: Step)
    ensures r.db == db
    ensures Authenticated(db, session) ==> r.outcome == Ok(Redirected) && r.session == session
    ensures r.outcome == Ok(LoggedIn) ==>
      && !Authenticated(db, session) && submitted && LoginValid(f)
      && r.session.Some? && r.session.value in db.users
      && db.users[r.session.value].username == f.username
      && CheckPasswordHash(db.users[r.session.value].password, f.password)
    ensures r.outcome != Ok(LoggedIn) ==> r.session == session
    ensures !Authenticated(db, session) && submitted && LoginValid(f) ==>
      r.outcome == Ok(LoggedIn) || r.outcome == BadCredentials
    ensures !Authenticated(db, session) && !(submitted && LoginValid(f)) ==> r.outcome == Invalid
  {
    if CurrentUserId(db, session).Some? then
      Step(Ok(Redirected), db, session)
    else if submitted && LoginValid(f) then
      match FindUserByName(db.users, f.username)
      case Some(uid) =>
        if CheckPasswordHash(db.users[uid].password, f.password) then
          Step(Ok(LoggedIn), db, Some(uid))
        else
          Step(BadCredentials, db, session)
      case None =>
        Step(BadCredentials, db, session)
    else
      Step(Invalid, db, session)
  }

  /**
   * What Werkzeug's default `string` URL converter matches: one non-empty path segment,
   * so a value with a `/` in it never reaches the route.
   */
  predicate IsPathSegment(s: string)
  {
    s != [] && '/' !in s
  }

  /**
   * `GET /login_as/<username>`: logs out whoever is logged in, then logs in as the named
   * user without asking for any credential. A name that is not one path segment matches
   * no route at all.
   */
  function LoginAs(db: Db, session: Session, username: string): (r: Step)
    ensures r.db == db
    ensures r.outcome == NotFound <==> !IsPathSegment(username)
    ensures r.outcome == NotFound ==> r.session == session
    ensures r.outcome == Ok(LoggedInAs) <==> IsPathSegment(username) && UsernameTaken(db.users, username)
    ensures r.outcome == Ok(LoggedInAs) ==>
      && r.session.Some? && r.session.value in db.users
      && db.users[r.session.value].username == username
    ensures r.outcome == Ok(UserNotFound) <==> IsPathSegment(username) && !UsernameTaken(db.users, username)
    ensures r.outcome == Ok(UserNotFound) ==>
      && !Authenticated(db, r.session)
      && r.session == (if Authenticated(db, session) then None else session)
  {
    if !IsPathSegment(username) then
      Step(NotFound, db, session)
    else
      var loggedOut := if CurrentUserId(db, session).Some? then None else session;
      match FindUserByName(db.users, username)
      case Some(uid) => Step(Ok(LoggedInAs), db, Some(uid))
      case None => Step(Ok(UserNotFound), db, loggedOut)
  }

  /** `GET /logout`: needs no login and always empties the session. */
  function Logout(db: Db, session: Session): (r: Step)
    ensures r.db == db
    ensures r.outcome == Ok(LoggedOut)
    ensures r.session == None
    ensures !Authenticated(r.db, r.session)
  {
    Step(Ok(LoggedOut), db, None)
  }

  /** `GET/POST /admin/create_user`: administrators create accounts of either role. */
  function CreateUser(db: Db, session: Session, f: RegistrationForm, submitted: bool): (r: Step)
    ensures r.session == session
    ensures r.outcome == Unauthorized <==> !Authenticated(db, session)
    ensures r.outcome == Forbidden <==>
      Authenticated(db, session) && !CallerMay(db, session, Policy.CreateUser)
    ensures r.outcome == Ok(UserCreated) <==>
      && Authenticated(db, session) && CallerMay(db, session, Policy.CreateUser)
      && submitted && RegistrationValid(f, db.users)
    ensures r.outcome == Invalid <==>
      && Authenticated(db, session) && CallerMay(db, session, Policy.CreateUser)
      && !(submitted && RegistrationValid(f, db.users))
    ensures r.outcome == Ok(UserCreated) ==>
      && AddsRow(db.users, r.db.users,
                 User(f.username, GeneratePasswordHash(f.password), if f.isAdmin then ADMIN else REGULAR))
      && r.db == db.(users := r.db.users)
    ensures r.outcome != Ok(UserCreated) ==> r.db == db
  {
    match CurrentUserId(db, session)
    case None => Step(Unauthorized, db, session)
    case Some(uid) =>
      if db.users[uid].role != ADMIN then
        Step(Forbidden, db, session)
      else if submitted && RegistrationValid(f, db.users) then
        var role := if f.isAdmin then ADMIN else REGULAR;
        var user := User(f.username, GeneratePasswordHash(f.password), role);
        Step(Ok(UserCreated), db.(users := Insert(db.users, user)), session)
      else
        Step(Invalid, db, session)
  }

  /** `GET/POST /project/<id>/ticket/new`: members and administrators file tickets as themselves. */
  function NewTicket(db: Db, session: Session, pid: Id, f: TicketForm, submitted: bool, now: Timestamp): (r: Step)
    ensures r.session == session
    ensures r.outcome == Unauthorized <==> !Authenticated(db, session)
    ensures r.outcome == NotFound <==> Authenticated(db, session) && pid !in db.projects
    ensures r.outcome == Forbidden <==>
      && Authenticated(db, session) && pid in db.projects
      && !CallerMay(db, session, Policy.CreateTicket(pid))
    ensures r.outcome.Ok? <==>
      && Authenticated(db, session) && pid in db.projects
      && CallerMay(db, session, Policy.CreateTicket(pid))
      && submitted && TicketValid(f)
    ensures r.outcome == Invalid <==>
      && Authenticated(db, session) && pid in db.projects
      && CallerMay(db, session, Policy.CreateTicket(pid))
      && !(submitted && TicketValid(f))
    ensures r.outcome.Ok? ==>
      && r.outcome.msg == TicketCreated
      && AddsRow(db.tickets, r.db.tickets,
                 Ticket(f.subject, f.description, now, f.status, session.value, pid))
      && r.db == db.(tickets := r.db.tickets)
    ensures !r.outcome.Ok? ==> r.db == db
  {
    match CurrentUserId(db, session)
    case None => Step(Unauthorized, db, session)
    case Some(uid) =>
      if pid !in db.projects then
        Step(NotFound, db, session)
      else if (pid, uid) !in db.members && db.users[uid].role != ADMIN then
        Step(Forbidden, db, session)
      else if submitted && TicketValid(f) then
        var ticket := Ticket(f.subject, f.description, now, f.status, uid, pid);
        Step(Ok(TicketCreated), db.(tickets := Insert(db.tickets, ticket)), session)
      else
        Step(Invalid, db, session)
  }

  /**
   * `GET/POST /ticket/<id>/update`: members of the ticket's project and administrators
   * overwrite its subject, description and status; nothing else about it changes.
   */
  function UpdateTicket(db: Db, session: Session, tid: Id, f: TicketForm, submitted: bool): (r: Step)
    ensures r.session == session
    ensures r.outcome == Unauthorized <==> !Authenticated(db, session)
    ensures r.outcome == NotFound <==> Authenticated(db, session) && tid !in db.tickets
    ensures r.outcome == ServerError <==>
      Authenticated(db, session) && tid in db.tickets && db.tickets[tid].projectId !in db.projects
    ensures r.outcome == Forbidden <==>
      && Authenticated(db, session) && tid in db.tickets && db.tickets[tid].projectId in db.projects
      && !CallerMay(db, session, Policy.UpdateTicket(tid))
    ensures r.outcome.Ok? <==>
      && Authenticated(db, session) && tid in db.tickets && db.tickets[tid].projectId in db.projects
      && CallerMay(db, session, Policy.UpdateTicket(tid))
      && submitted && TicketValid(f)
    ensures r.outcome == Invalid <==>
      && Authenticated(db, session) && tid in db.tickets && db.tickets[tid].projectId in db.projects
      && CallerMay(db, session, Policy.UpdateTicket(tid))
      && !(submitted && TicketValid(f))
    ensures r.outcome.Ok? ==>
      && r.outcome.msg == TicketUpdated
      && r.db == db.(tickets := r.db.tickets)
      && r.db.tickets.Keys == db.tickets.Keys
      && (forall k :: k in db.tickets && k != tid ==> r.db.tickets[k] == db.tickets[k])
      && r.db.tickets[tid].subject == f.subject
      && r.db.tickets[tid].description == f.description
      && r.db.tickets[tid].status == f.status
      && r.db.tickets[tid].created == db.tickets[tid].created
      && r.db.tickets[tid].authorId == db.tickets[tid].authorId
      && r.db.tickets[tid].projectId == db.tickets[tid].projectId
    ensures !r.outcome.Ok? ==> r.db == db
  {
    match CurrentUserId(db, session)
    case None => Step(Unauthorized, db, session)
    case Some(uid) =>
      if tid !in db.tickets then
        Step(NotFound, db, session)
      else
        var ticket := db.tickets[tid];
        if ticket.projectId !in db.projects then
          // `ticket.project` is None and `project.users` raises
          Step(ServerError, db, session)
        else if (ticket.projectId, uid) !in db.members && db.users[uid].role != ADMIN then
          Step(Forbidden, db, session)
        else if submitted && TicketValid(f) then
          var edited := ticket.(subject := f.subject, description := f.description, status := f.status);
          Step(Ok(TicketUpdated), db.(tickets := db.tickets[tid := edited]), session)
        else
          Step(Invalid, db, session)
  }

  /** `POST /ticket/<id>/delete`: the author or an administrator removes one ticket. */
  function DeleteTicket(db: Db, session: Session, tid: Id, submitted: bool): (r: Step)
    ensures r.session == session
    ensures r.outcome == Unauthorized <==> !Authenticated(db, session)
    ensures r.outcome == NotFound <==> Authenticated(db, session) && tid !in db.tickets
    ensures r.outcome == BadRequest <==> Authenticated(db, session) && tid in db.tickets && !submitted
    ensures r.outcome == Forbidden <==>
      && Authenticated(db, session) && tid in db.tickets && submitted
      && !CallerMay(db, session, Policy.DeleteTicket(tid))
    ensures r.outcome.Ok? <==>
      && Authenticated(db, session) && tid in db.tickets && submitted
      && CallerMay(db, session, Policy.DeleteTicket(tid))
    ensures r.outcome.Ok? ==>
      && r.outcome.msg == TicketDeleted
      && r.db == db.(tickets := r.db.tickets)
      && r.db.tickets.Keys == db.tickets.Keys - {tid}
      && (forall k :: k in r.db.tickets ==> r.db.tickets[k] == db.tickets[k])
    ensures !r.outcome.Ok? ==> r.db == db
  {
    match CurrentUserId(db, session)
    case None => Step(Unauthorized, db, session)
    case Some(uid) =>
      if tid !in db.tickets then
        Step(NotFound, db, session)
      else if !submitted then
        Step(BadRequest, db, session)
      else if db.users[uid].role != ADMIN && db.tickets[tid].authorId != uid then
        Step(Forbidden, db, session)
      else
        Step(Ok(TicketDeleted), db.(tickets := db.tickets - {tid}), session)
  }

  /** `GET/POST /project/new`: administrators create a project under a fresh name. */
  function CreateProject(db: Db, session: Session, f: ProjectForm, submitted: bool, now: Timestamp): (r: Step)
    ensures r.session == session
    ensures r.outcome == Unauthorized <==> !Authenticated(db, session)
    ensures r.outcome == Forbidden <==>
      Authenticated(db, session) && !CallerMay(db, session, Policy.CreateProject)
    ensures r.outcome.Ok? <==>
      && Authenticated(db, session) && CallerMay(db, session, Policy.CreateProject)
      && submitted && ProjectValid(f, db.projects)
    ensures r.outcome == Invalid <==>
      && Authenticated(db, session) && CallerMay(db, session, Policy.CreateProject)
      && !(submitted && ProjectValid(f, db.projects))
    ensures r.outcome.Ok? ==>
      && r.outcome.msg == ProjectCreated
      && AddsRow(db.projects, r.db.projects, Project(f.name, f.description, now))
      && r.db == db.(projects := r.db.projects)
    ensures !r.outcome.Ok? ==> r.db == db
  {
    match CurrentUserId(db, session)
    case None => Step(Unauthorized, db, session)
    case Some(uid) =>
      if db.users[uid].role != ADMIN then
        Step(Forbidden, db, session)
      else if submitted && ProjectValid(f, db.projects) then
        var project := Project(f.name, f.description, now);
        Step(Ok(ProjectCreated), db.(projects := Insert(db.projects, project)), session)
      else
        Step(Invalid, db, session)
  }

  /**
   * The assign step of the project page: look the user up by name and add the membership
   * unless it is already there. An unknown name and an existing member change nothing.
   */
  function AssignMember(db: Db, pid: Id, username: string): (r: (Msg, Db))
    ensures r.0 in {NoSuchUser, AlreadyAssigned, UserAssigned}
    ensures r.0 == NoSuchUser <==> !UsernameTaken(db.users, username)
    ensures r.0 == AlreadyAssigned ==>
      exists uid :: uid in db.users && db.users[uid].username == username
        && Policy.IsMember(db, pid, uid)
    ensures r.0 == UserAssigned ==>
      exists uid :: uid in db.users && db.users[uid].username == username
        && !Policy.IsMember(db, pid, uid)
        && r.1 == db.(members := db.members + {(pid, uid)})
    ensures r.0 != UserAssigned ==> r.1 == db
  {
    match FindUserByName(db.users, username)
    case None => (NoSuchUser, db)
    case Some(uid) =>
      if (pid, uid) in db.members then
        (AlreadyAssigned, db)
      else
        (UserAssigned, db.(members := db.members + {(pid, uid)}))
  }

  /**
   * `POST /project/<id>` with the assign form: an administrator assigns the user named by
   * the stripped input to the project.
   */
  function AssignUser(db: Db, session: Session, pid: Id, f: AssignUserForm, submitted: bool): (r: Step)
    ensures r.session == session
    ensures r.outcome == Unauthorized <==> !Authenticated(db, session)
    ensures r.outcome == NotFound <==> Authenticated(db, session) && pid !in db.projects
    ensures r.outcome == Invalid <==>
      Authenticated(db, session) && pid in db.projects && !(submitted && AssignUserValid(f))
    ensures r.outcome == Forbidden <==>
      && Authenticated(db, session) && pid in db.projects && submitted && AssignUserValid(f)
      && !CallerMay(db, session, Policy.ManageMembers)
    ensures r.outcome.Ok? <==>
      && Authenticated(db, session) && pid in db.projects && submitted && AssignUserValid(f)
      && CallerMay(db, session, Policy.ManageMembers)
    ensures r.outcome.Ok? ==>
      var (msg, after) := AssignMember(db, pid, Strip(f.username));
      r.outcome.msg == msg && r.db == after
    ensures !r.outcome.Ok? ==> r.db == db
  {
    match CurrentUserId(db, session)
    case None => Step(Unauthorized, db, session)
    case Some(caller) =>
      if pid !in db.projects then
        Step(NotFound, db, session)
      else if !(submitted && AssignUserValid(f)) then
        // the project page is rendered instead
        Step(Invalid, db, session)
      else if db.users[caller].role != ADMIN then
        Step(Forbidden, db, session)
      else
        var (msg, after) := AssignMember(db, pid, Strip(f.username));
        Step(Ok(msg), after, session)
  }

  /**
   * `POST /project/<id>/delete`: an administrator deletes a project and its membership rows.
   * The tickets relationship declares no cascade, so the ORM would set the project's tickets'
   * `project_id` to NULL, which the NOT NULL column refuses: a project that still has tickets
   * cannot be deleted and the request fails with nothing committed.
   */
  function DeleteProject(db: Db, session: Session, pid: Id, submitted: bool): (r: Step)
    ensures r.session == session
    ensures r.outcome == Unauthorized <==> !Authenticated(db, session)
    ensures r.outcome == NotFound <==> Authenticated(db, session) && pid !in db.projects
    ensures r.outcome == BadRequest <==> Authenticated(db, session) && pid in db.projects && !submitted
    ensures r.outcome == Forbidden <==>
      && Authenticated(db, session) && pid in db.projects && submitted
      && !CallerMay(db, session, Policy.DeleteProject)
    ensures r.outcome == ServerError <==>
      && Authenticated(db, session) && pid in db.projects && submitted
      && CallerMay(db, session, Policy.DeleteProject) && ProjectHasTickets(db, pid)
    ensures r.outcome.Ok? <==>
      && Authenticated(db, session) && pid in db.projects && submitted
      && CallerMay(db, session, Policy.DeleteProject) && !ProjectHasTickets(db, pid)
    ensures r.outcome.Ok? ==>
      && r.outcome.msg == ProjectDeleted
      && r.db.users == db.users && r.db.tickets == db.tickets
      && r.db.projects.Keys == db.projects.Keys - {pid}
      && (forall k :: k in r.db.projects ==> r.db.projects[k] == db.projects[k])
      && (forall m :: m in r.db.members <==> m in db.members && m.0 != pid)
    ensures !r.outcome.Ok? ==> r.db == db
  {
    match CurrentUserId(db, session)
    case None => Step(Unauthorized, db, session)
    case Some(uid) =>
      if pid !in db.projects then
        Step(NotFound, db, session)
      else if !submitted then
        Step(BadRequest, db, session)
      else if db.users[uid].role != ADMIN then
        Step(Forbidden, db, session)
      else if ProjectHasTickets(db, pid) then
        Step(ServerError, db, session)
      else
        var members := set m | m in db.members && m.0 != pid;
        Step(Ok(ProjectDeleted), db.(projects := db.projects - {pid}, members := members), session)
  }

  /**
   * `POST /project/<id>/remove_user/<user_id>`: an administrator removes one membership.
   * Removing a user who is not a member changes nothing.
   */
  function RemoveUser(db: Db, session: Session, pid: Id, uid: Id): (r: Step)
    ensures r.session == session
    ensures r.outcome == Unauthorized <==> !Authenticated(db, session)
    ensures r.outcome == NotFound <==>
      && Authenticated(db, session)
      && (pid !in db.projects || (CallerMay(db, session, Policy.ManageMembers) && uid !in db.users))
    ensures r.outcome == Forbidden <==>
      Authenticated(db, session) && pid in db.projects && !CallerMay(db, session, Policy.ManageMembers)
    ensures r.outcome == Ok(UserRemoved) <==>
      && Authenticated(db, session) && pid in db.projects && CallerMay(db, session, Policy.ManageMembers)
      && uid in db.users && Policy.IsMember(db, pid, uid)
    ensures r.outcome == Ok(NotAssigned) <==>
      && Authenticated(db, session) && pid in db.projects && CallerMay(db, session, Policy.ManageMembers)
      && uid in db.users && !Policy.IsMember(db, pid, uid)
    ensures r.outcome == Ok(UserRemoved) ==> r.db == db.(members := db.members - {(pid, uid)})
    ensures r.outcome != Ok(UserRemoved) ==> r.db == db
  {
    match CurrentUserId(db, session)
    case None => Step(Unauthorized, db, session)
    case Some(caller) =>
      if pid !in db.projects then
        Step(NotFound, db, session)
      else if db.users[caller].role != ADMIN then
        Step(Forbidden, db, session)
      else if uid !in db.users then
        Step(NotFound, db, session)
      else if (pid, uid) in db.members then
        Step(Ok(UserRemoved), db.(members := db.members - {(pid, uid)}), session)
      else
        Step(Ok(NotAssigned), db, session)
  }

  /** Every state-changing request the application serves, with its route arguments and form. */
  datatype Request =
    | RegisterRequest(registration: RegistrationForm)
    | LoginRequest(credentials: LoginForm)
    | LoginAsRequest(username: string)
    | LogoutRequest
    | CreateUserRequest(registration: RegistrationForm)
    | NewTicketRequest(projectId: Id, ticket: TicketForm, now: Timestamp)
    | UpdateTicketRequest(ticketId: Id, ticket: TicketForm)
    | DeleteTicketRequest(ticketId: Id)
    | CreateProjectRequest(project: ProjectForm, now: Timestamp)
    | AssignUserRequest(projectId: Id, assign: AssignUserForm)
    | DeleteProjectRequest(projectId: Id)
    | RemoveUserRequest(projectId: Id, userId: Id)

  /** The routes behind `@login_required`. */
  predicate LoginRequired(req: Request)
  {
    !(req.RegisterRequest? || req.LoginRequest? || req.LoginAsRequest? || req.LogoutRequest?)
  }

  /** The application's URL dispatch. */
  function Handle(db: Db, session: Session, req: Request, submitted: bool): Step
  {
    match req
    case RegisterRequest(f) => Register(db, session, f, submitted)
    case LoginRequest(f) => Login(db, session, f, submitted)
    case LoginAsRequest(name) => LoginAs(db, session, name)
    case LogoutRequest => Logout(db, session)
    case CreateUserRequest(f) => CreateUser(db, session, f, submitted)
    case NewTicketRequest(pid, f, now) => NewTicket(db, session, pid, f, submitted, now)
    case UpdateTicketRequest(tid, f) => UpdateTicket(db, session, tid, f, submitted)
    case DeleteTicketRequest(tid) => DeleteTicket(db, session, tid, submitted)
    case CreateProjectRequest(f, now) => CreateProject(db, session, f, submitted, now)
    case AssignUserRequest(pid, f) => AssignUser(db, session, pid, f, submitted)
    case DeleteProjectRequest(pid) => DeleteProject(db, session, pid, submitted)
    case RemoveUserRequest(pid, uid) => RemoveUser(db, session, pid, uid)
  }
}

=== FILE: Text.dfy ===
/** Python string helpers the forms and routes rely on: `str.isspace` and `str.strip()`. */
module Text {

  /** The characters Python's `str.isspace` accepts (and `str.strip()` removes). */
  predicate IsSpace(c: char)
  {
    || c == ' '
    || ('\t' <= c <= '\r')
    || ('\U{1c}' <= c <= '\U{1f}')
    || c == '\U{85}'
    || c == '\U{a0}'
    || c == '\U{1680}'
    || ('\U{2000}' <= c <= '\U{200a}')
    || c == '\U{2028}'
    || c == '\U{2029}'
    || c == '\U{202f}'
    || c == '\U{205f}'
    || c == '\U{3000}'
  }

  /** True when `s` holds at least one character that is not white space. */
  predicate HasContent(s: string)
  {
    exists i :: 0 <= i < |s| && !IsSpace(s[i])
  }

  /** The first index at or after `i` that does not hold white space (or `|s|`). */
  function SkipSpaces(s: string, i: nat): (lo: nat)
    requires i <= |s|
    ensures i <= lo <= |s|
    ensures forall k :: i <= k < lo ==> IsSpace(s[k])
    ensures lo == |s| || !IsSpace(s[lo])
    decreases |s| - i
  {
    if i < |s| && IsSpace(s[i]) then SkipSpaces(s, i + 1) else i
  }

  /** The end of `s[lo..j]` once its trailing white space is dropped. */
  function SkipTrailingSpaces(s: string, lo: nat, j: nat): (hi: nat)
    requires lo <= j <= |s|
    ensures lo <= hi <= j
    ensures forall k :: hi <= k < j ==> IsSpace(s[k])
    ensures hi == lo || !IsSpace(s[hi - 1])
    decreases j
  {
    if j > lo && IsSpace(s[j - 1]) then SkipTrailingSpaces(s, lo, j - 1) else j
  }

  /** Python's `s.strip()`: the slice of `s` between its leading and trailing white space. */
  function Strip(s: string): (r: string)
    ensures var lo := SkipSpaces(s, 0); var hi := SkipTrailingSpaces(s, lo, |s|);
      && r == s[lo..hi]
      && (forall k :: 0 <= k < lo ==> IsSpace(s[k]))
      && (forall k :: hi <= k < |s| ==> IsSpace(s[k]))
    ensures r == [] || (!IsSpace(r[0]) && !IsSpace(r[|r| - 1]))
    ensures r == [] <==> !HasContent(s)
  {
    var lo := SkipSpaces(s, 0);
    var hi := SkipTrailingSpaces(s, lo, |s|);
    assert lo < hi ==> s[lo..hi][0] == s[lo] && s[lo..hi][hi - lo - 1] == s[hi - 1];
    s[lo..hi]
  }

  /** Stripping is idempotent: a stripped string has nothing left to strip. */
  lemma {:induction false} StripIdempotent(s: string)
    ensures Strip(Strip(s)) == Strip(s)
  {
    var r := Strip(s);
    assert SkipSpaces(r, 0) == 0;
    assert SkipTrailingSpaces(r, 0, |r|) == |r|;
    assert r[0..|r|] == r;
  }
}
